=== FILE: README.md ===
# Creator earnings calculator — a Dafny model

This project models the calculation behind the single-page "Creator Earnings Calc (India)"
tool (`app.py`). A creator enters a subscriber count and a monthly charge and then picks a
platform. The page then shows:

- the gross monthly revenue, the platform's commission and the net take-home;
- when the net is positive, an annual projection, a pro-tip when the commission is 30% or more or exactly 15%, and a comparison
  of the net through the web (20% fee) with the net through an app store (30% fee).

The script has no functions of its own: it computes its values in straight-line
assignments and if/elif chains. The model lifts that logic into pure Dafny functions,
one module per concern:

- `Commission`: the platform select box and the custom slider, turned into a commission
  percentage.
- `Earnings`: gross, commission and net for one month.
- `Insights`: the annual projection, the pro-tip rule and the web/app comparison.
- `Page`: one evaluation of the whole page from the widget values. It also covers the
  `int(...)` truncation applied to the shown amounts.
- `Wrappers`: an `Option` type for the analytics block, which is shown only under a
  condition.

All arithmetic is exact. Subscribers, charge and percentage are integers. The commission,
the net and the comparison amounts are exact reals, because the source divides by 100 with
true division and multiplies by `0.80` and `0.70`. Python's `int()` is modelled as
truncation toward zero of the exact amount.

## Model

| member | source | states |
|---|---|---|
| `Commission.CommissionPct` | app.py:36-43 | every platform choice, including any slider value, gives a commission in 0..50 |
| `Commission.PresetsAreFixed` | app.py:36-41 | the three presets, which carry no slider value, give exactly 20 (web), 15 (small business) and 30 (standard app store) |
| `Commission.ReachableCommissions` | app.py:36-43 | an integer is reachable as a commission if and only if it lies in 0..50; the custom option gives exactly the slider's value |
| `Earnings.Calculate` | app.py:46-48 | gross is non-negative, commission and net add up to the gross, and net is gross × (100 − pct) / 100 |
| `Earnings.CalculateInHundredths` | app.py:47-48 | the commission is gross × pct / 100 and the net is gross × (100 − pct) / 100, as exact fractions of whole numbers |
| `Earnings.GrossIsProduct` | app.py:46 | gross equals subscribers × charge, and is either zero or at least the subscriber count |
| `Earnings.CommissionBounds` | app.py:47 | for a commission of 0..50%, the commission amount is between 0 and half the gross |
| `Earnings.NetBounds` | app.py:47-48 | for a commission of 0..50%, the net lies between half the gross and the whole gross |
| `Earnings.NetIsGrossIff` | app.py:47-48 | net equals gross if and only if the percentage is 0 or the gross is 0 |
| `Earnings.NothingEarned` | app.py:46-48 | zero subscribers or a zero charge make gross, commission and net all zero, for any percentage |
| `Earnings.NetPositiveIff` | app.py:46-48 | for a commission of 0..50%, the net is positive if and only if both subscribers and charge are positive |
| `Earnings.NetMonotone` | app.py:46-48 | a larger commission (up to 100%) never raises the net; more subscribers or a higher charge never lower it |
| `Insights.ProTip` | app.py:67-70 | the high-fee warning is chosen if and only if pct ≥ 30, and the small-business info only when pct = 15 |
| `Insights.ProTipCases` | app.py:67-70 | the tip rule is ordered and exclusive: a warning if and only if pct ≥ 30, the small-business info if and only if pct = 15, and otherwise no tip |
| `Insights.Compare` | app.py:74-78 | the web net is 80% of the gross and the app-store net is 70%; for a non-negative gross, 0 ≤ app-store net ≤ web net ≤ gross, and the saving is exactly a tenth of the gross |
| `Insights.Analyse` | app.py:61-78 | the analytics block exists if and only if net > 0; its annual figure is then twelve times the net and larger than it, its tip is the pro-tip rule's choice for the commission, and its comparison is the one computed from the gross |
| `Insights.CompareAgreesWithCalculate` | app.py:74-75 | the comparison's web net is the calculator's net at 20%, and its app-store net is the calculator's net at 30% |
| `Page.Trunc` | app.py:55-56 | `int()` gives the floor of a non-negative amount and the ceiling of a negative one |
| `Page.Summarise` | app.py:54-56 | the gross is shown as it is, and the shown fees and net are the largest integers not above the non-negative exact amounts |
| `Page.Show` | app.py:64-78 | the tip is passed through; the shown annual figure, web net, app-store net and saving are each the largest integer not above the non-negative exact amount |
| `Page.Evaluate` | app.py:25-78 | the page's commission is in 0..50, gross is subscribers × charge, the analytics block appears if and only if both inputs are positive, and 0 ≤ shown fees ≤ shown net ≤ gross |
| `Page.ShownSummarySplit` | app.py:54-56 | the shown fees plus the shown net equal the gross or fall one short of it |
| `Page.NothingEarnedSkipsInsights` | app.py:46-61 | zero subscribers or a zero charge show an all-zero summary and skip the annual figure, the tip and the comparison |
| `Page.AnnualProjection` | app.py:61-64 | with earnings, the annual figure is 12 × the monthly net, and the shown annual figure is at least 12 × the shown net |
| `Page.TipForPlatform` | app.py:36-70 | with earnings, web shows no tip, small business shows the info and the standard app store shows the warning; a custom k shows the warning when k ≥ 30, the info when k = 15, and otherwise nothing |
| `Page.ComparisonIgnoresPlatform` | app.py:74-75 | the comparison amounts are the same whichever platform is chosen |
| `Page.ShownComparison` | app.py:74-78 | the shown web net is 8 × gross / 10 and the shown app-store net 7 × gross / 10 (integer division), so web ≥ app, and the shown saving is gross / 10 rounded down |
| `Page.ShownAtCommission` | app.py:36-70 | for all inputs, the page's commission is the chosen platform's; the shown fees are gross × pct / 100 and the shown net gross × (100 − pct) / 100 (integer division); when shown, the annual figure is 12 × gross × (100 − pct) / 100 and the tip is the pro-tip rule's choice for that commission |
| `Page.DefaultPage` | app.py:25-78 | the default inputs (100 subscribers at 290, web preset) give gross 29000, fees 5800, net 23200, annual 278400, no tip, and a comparison of 23200 / 20300 / 2900 |

## Left out

- Every Streamlit call: page configuration, CSS, titles, columns, widgets, metrics, banners, expander and footer. The model takes the values the widgets return. Subscribers and charge are naturals. The platform is one of four options, and the custom option carries a slider value in 0..50.
- The option labels of the select box. They are only used to choose the branch of the if/elif chain, so the `Platform` datatype stands for them.
- IEEE-754 floating point. Amounts are exact. A shown amount can differ from the program's by one: a custom 29% on a gross of 100 gives 28.999999999999996 in floats, which `int()` shows as 28, where the model gives 29. Once the gross passes 2^53 it is itself rounded when converted to a float, and the shown amounts can then differ by more than one.
- Page.ShownSummarySplit: holds for the exact amounts; with floats and a gross past 2^53 the program's shown fees and net need not add up to within one of the gross.
- The thousands separators of the `:,` format. The shown amounts are modelled as integers, not as strings.
- The metric label `"Fees ({commission_pct}%)"`. It is not an f-string, so it shows that literal text. It is display only.
- Indian lakh/crore digit grouping, number-to-words conversion, the PDF report, the featured-creators directory and the admin password gate. None of them is part of `app.py`, so they are not part of this model.

=== FILE: commission.dfy ===
/**
 * Choice of the platform commission (app.py, lines 30-43).
 *
 * The select box offers four platforms. Three of them carry a fixed commission;
 * the fourth, "Custom %", renders a slider bounded to 0..50 whose value becomes
 * the commission. The slider only exists in that branch, so its value is carried
 * by the Custom alternative.
 */
module Commission {

  /** Bounds and default of the custom-commission slider (app.py, line 43). */
  const SliderMin: int := 0
  const SliderMax: int := 50
  const SliderDefault: int := 20

  /** A value the slider can return: an integer percentage in SliderMin..SliderMax. */
  type SliderValue = p: int | SliderMin <= p <= SliderMax witness SliderDefault

  /** The options of the platform select box (app.py, line 32), in display order. */
  datatype Platform =
    | WebBased           // "Web-based (OnlyFans/Fanvue)"
    | SmallBusiness      // "App Store (Small Business/Instagram)"
    | StandardAppStore   // "App Store (Standard 30%)"
    | Custom(slider: SliderValue)  // "Custom %", with the slider's value

  /** The commission percentage in force for the chosen platform. */
  function CommissionPct(platform: Platform): (pct: int)
    ensures SliderMin <= pct <= SliderMax
  {
    match platform
    case WebBased => 20
    case SmallBusiness => 15
    case StandardAppStore => 30
    case Custom(s) => s
  }

  /** The three presets are fixed: they give 20, 15 and 30 per cent and ignore any slider. */
  lemma PresetsAreFixed(p: Platform)
    requires !p.Custom?
    ensures CommissionPct(p) == (if p.WebBased? then 20 else if p.SmallBusiness? then 15 else 30)
    ensures CommissionPct(p) in {15, 20, 30}
  {
  }

  /**
   * The commissions a platform choice can give are exactly the integers 0..50: every
   * choice gives one of them, and each of them is reached (through the slider).
   */
  lemma ReachableCommissions(k: int)
    ensures (exists p: Platform :: CommissionPct(p) == k) <==> SliderMin <= k <= SliderMax
    ensures SliderMin <= k <= SliderMax ==> CommissionPct(Custom(k)) == k
  {
    if SliderMin <= k <= SliderMax {
      assert CommissionPct(Custom(k)) == k;
    }
  }
}

=== FILE: earnings.dfy ===
/**
 * The monthly earnings arithmetic (app.py, lines 25-26 and 46-48).
 *
 * Subscribers and the monthly charge are integer widgets with minimum 0, so they
 * are natural numbers. The commission percentage is divided by 100 with true
 * division, so the commission and the net take-home are exact rationals here.
 */
module Earnings {

  /** The monthly figures the page reports. */
  datatype Earnings = Earnings(gross: int, commission: real, net: real)

  /** Gross revenue, platform commission and net take-home for one month. */
  function Calculate(subscribers: nat, charge: nat, pct: int): (e: Earnings)
    ensures e.gross >= 0
    ensures e.commission + e.net == e.gross as real
    ensures e.net == e.gross as real * (100 - pct) as real / 100.0
  {
    var gross := subscribers * charge;
    var commission := (pct as real / 100.0) * gross as real;
    Earnings(gross, commission, gross as real - commission)
  }

  /** Gross revenue is the product of subscribers and charge, and never negative. */
  lemma GrossIsProduct(subscribers: nat, charge: nat, pct: int)
    ensures Calculate(subscribers, charge, pct).gross == subscribers * charge
    ensures Calculate(subscribers, charge, pct).gross >= subscribers
            || Calculate(subscribers, charge, pct).gross == 0
  {
  }

  /** With a commission of 0..50 per cent, the platform takes between nothing and half the gross. */
  lemma CommissionBounds(subscribers: nat, charge: nat, pct: int)
    requires 0 <= pct <= 50
    ensures 0.0 <= Calculate(subscribers, charge, pct).commission
    ensures Calculate(subscribers, charge, pct).commission
            <= Calculate(subscribers, charge, pct).gross as real / 2.0
  {
    var e := Calculate(subscribers, charge, pct);
    var g := e.gross as real;
    var f := pct as real / 100.0;
    assert 0.0 <= f <= 0.5;
    assert e.commission == f * g;
    MulBounds(f, 0.5, g);
  }

  /** Net take-home lies between half the gross and the whole gross. */
  lemma NetBounds(subscribers: nat, charge: nat, pct: int)
    requires 0 <= pct <= 50
    ensures Calculate(subscribers, charge, pct).gross as real / 2.0
            <= Calculate(subscribers, charge, pct).net
            <= Calculate(subscribers, charge, pct).gross as real
  {
    CommissionBounds(subscribers, charge, pct);
  }

  /** Net equals gross exactly when there is no commission or nothing was earned. */
  lemma NetIsGrossIff(subscribers: nat, charge: nat, pct: int)
    ensures Calculate(subscribers, charge, pct).net == Calculate(subscribers, charge, pct).gross as real
            <==> pct == 0 || subscribers * charge == 0
  {
    var e := Calculate(subscribers, charge, pct);
    var g := e.gross as real;
    var f := pct as real / 100.0;
    if e.net == g {
      assert f * g == 0.0;
      ZeroProduct(f, g);
    }
  }

  /** Zero subscribers or a zero charge make every figure zero, whatever the commission. */
  lemma NothingEarned(subscribers: nat, charge: nat, pct: int)
    requires subscribers == 0 || charge == 0
    ensures Calculate(subscribers, charge, pct) == Earnings(0, 0.0, 0.0)
  {
  }

  /** With a commission of 0..50 per cent, net is positive exactly when both inputs are. */
  lemma NetPositiveIff(subscribers: nat, charge: nat, pct: int)
    requires 0 <= pct <= 50
    ensures Calculate(subscribers, charge, pct).net > 0.0 <==> subscribers > 0 && charge > 0
  {
    var e := Calculate(subscribers, charge, pct);
    NetBounds(subscribers, charge, pct);
    if subscribers > 0 && charge > 0 {
      GrossIsProduct(subscribers, charge, pct);
      assert e.gross >= 1;
    } else {
      NothingEarned(subscribers, charge, pct);
    }
  }

  /** A larger commission never raises the net; more subscribers or a higher charge never lower it. */
  lemma NetMonotone(s1: nat, c1: nat, p1: int, s2: nat, c2: nat, p2: int)
    requires s1 <= s2 && c1 <= c2 && p2 <= p1 <= 100
    ensures Calculate(s1, c1, p1).net <= Calculate(s2, c2, p2).net
  {
    NetMonotoneInPct(s1, c1, p1, p2);
    NatMulMonotone(s1, s2, c1);
    NatMulMonotone(c1, c2, s2);
    NetMonotoneInGross(s1, c1, s2, c2, p2);
  }

  /** For a fixed gross, the net falls as the commission rises. */
  lemma NetMonotoneInPct(subscribers: nat, charge: nat, p1: int, p2: int)
    requires p2 <= p1
    ensures Calculate(subscribers, charge, p1).net <= Calculate(subscribers, charge, p2).net
  {
    var r := (subscribers * charge) as real;
    var k1, k2 := (100 - p1) as real, (100 - p2) as real;
    assert r * k2 - r * k1 == (k2 - k1) * r >= 0.0 by { MulBounds(0.0, k2 - k1, r); }
  }

  /** For a fixed commission of at most 100%, the net grows with the gross. */
  lemma NetMonotoneInGross(s1: nat, c1: nat, s2: nat, c2: nat, pct: int)
    requires s1 * c1 <= s2 * c2 && pct <= 100
    ensures Calculate(s1, c1, pct).net <= Calculate(s2, c2, pct).net
  {
    var r1, r2 := (s1 * c1) as real, (s2 * c2) as real;
    var k := (100 - pct) as real;
    MulBounds(r1, r2, k);
  }

  /** Commission and net are whole hundredths: the gross times the percentage kept or taken, over 100. */
  lemma CalculateInHundredths(subscribers: nat, charge: nat, pct: int)
    ensures Calculate(subscribers, charge, pct).commission
            == ((subscribers * charge) * pct) as real / 100.0
    ensures Calculate(subscribers, charge, pct).net
            == ((subscribers * charge) * (100 - pct)) as real / 100.0
  {
    var g := subscribers * charge;
    assert (g * pct) as real == g as real * pct as real;
    assert (g * (100 - pct)) as real == g as real * (100 - pct) as real;
  }

  /** Multiplying by a non-negative factor preserves a non-negative ordering. */
  lemma MulBounds(x: real, y: real, z: real)
    requires 0.0 <= x <= y && 0.0 <= z
    ensures 0.0 <= x * z <= y * z && 0.0 <= z * x <= z * y
  {
  }

  /** Multiplying naturals by the same natural preserves their order. */
  lemma NatMulMonotone(a: nat, b: nat, c: nat)
    requires a <= b
    ensures a * c <= b * c && c * a <= c * b
  {
  }

  /** A product of reals is zero only when a factor is. */
  lemma ZeroProduct(x: real, y: real)
    requires x * y == 0.0
    ensures x == 0.0 || y == 0.0
  {
  }
}

=== FILE: insights.dfy ===
/**
 * The analytics block shown under the monthly summary (app.py, lines 61-78):
 * the annual projection, the pro-tip and the web-versus-app-store comparison.
 */
module Insights {
  import opened Wrappers
  import opened Earnings

  /** Months in the annual projection (app.py, line 63). */
  const MonthsPerYear: int := 12

  /** The pro-tip banner, if any (app.py, lines 67-70). */
  datatype Tip =
    | HighFeesWarning    // warning: app-store fees are eating the margin
    | SmallBusinessInfo  // info: the small-business / Instagram rate is in use
    | NoTip

  /**
   * Net take-home through the web (20% fee) and through an app store (30% fee);
   * the monthly saving shown is their difference.
   */
  datatype Comparison = Comparison(webNet: real, appNet: real)

  /** Everything the analytics block shows. */
  datatype Insights = Insights(yearlyNet: real, tip: Tip, comparison: Comparison)

  /** The pro-tip for a commission: the high-fee test is made first, then the 15% test. */
  function ProTip(pct: int): (t: Tip)
    ensures t == HighFeesWarning <==> pct >= 30
    ensures t == SmallBusinessInfo ==> pct == 15
  {
    if pct >= 30 then HighFeesWarning
    else if pct == 15 then SmallBusinessInfo
    else NoTip
  }

  /** The rule is ordered and its three outcomes are exclusive and exhaustive. */
  lemma ProTipCases(pct: int)
    ensures ProTip(pct) == HighFeesWarning <==> pct >= 30
    ensures ProTip(pct) == SmallBusinessInfo <==> pct == 15
    ensures ProTip(pct) == NoTip <==> pct < 30 && pct != 15
  {
  }

  /** The comparison amounts, computed from the gross alone. */
  function Compare(gross: int): (c: Comparison)
    ensures c.webNet == gross as real * 80.0 / 100.0 && c.appNet == gross as real * 70.0 / 100.0
    ensures gross >= 0 ==> 0.0 <= c.appNet <= c.webNet <= gross as real
    ensures c.webNet - c.appNet == gross as real / 10.0
  {
    var webNet := gross as real * 0.80;
    var appNet := gross as real * 0.70;
    Comparison(webNet, appNet)
  }

  /** The analytics block: present only when the net take-home is positive. */
  function Analyse(e: Earnings, pct: int): (r: Option<Insights>)
    ensures r.Some? <==> e.net > 0.0
    ensures r.Some? ==> r.value.yearlyNet > e.net
    ensures r.Some? ==> r.value.yearlyNet / MonthsPerYear as real == e.net
    ensures r.Some? ==> r.value.tip == ProTip(pct) && r.value.comparison == Compare(e.gross)
  {
    if e.net > 0.0 then
      Some(Insights(e.net * MonthsPerYear as real, ProTip(pct), Compare(e.gross)))
    else
      None
  }

  /**
   * The comparison's two amounts are the net the calculator gives at the web
   * preset (20%) and at the standard app-store preset (30%).
   */
  lemma CompareAgreesWithCalculate(subscribers: nat, charge: nat)
    ensures Compare(subscribers * charge).webNet == Calculate(subscribers, charge, 20).net
    ensures Compare(subscribers * charge).appNet == Calculate(subscribers, charge, 30).net
  {
  }
}

=== FILE: page.dfy ===
/**
 * One evaluation of the calculator page (app.py, lines 25-78): the widget
 * values in, the monthly summary and the analytics block out.
 *
 * Amounts are shown through Python's int(), which truncates toward zero; it is
 * applied here to the exact amounts.
 */
module Page {
  import opened Wrappers
  import opened Commission
  import opened Earnings
  import opened Insights

  /** Default widget values: 100 subscribers at 290 a month (app.py, lines 25-26). */
  const DefaultSubscribers: nat := 100
  const DefaultCharge: nat := 290

  /** Python's int() on a number: its integer part, truncated toward zero. */
  function Trunc(x: real): (n: int)
    ensures 0.0 <= x ==> 0 <= n && n as real <= x < n as real + 1.0
    ensures x < 0.0 ==> n <= 0 && x <= n as real < x + 1.0
  {
    if x >= 0.0 then x.Floor else -((-x).Floor)
  }

  /** The three metrics of the monthly summary (app.py, lines 54-56). */
  datatype Summary = Summary(gross: int, fees: int, net: int)

  /** The amounts printed in the analytics block (app.py, lines 64 and 76-78). */
  datatype ShownInsights = ShownInsights(yearly: int, tip: Tip, web: int, app: int, savings: int)

  /** What one evaluation of the page computes and shows. */
  datatype Page = Page(pct: int, earnings: Earnings, summary: Summary,
                       insights: Option<Insights>, shown: Option<ShownInsights>)

  /** The summary metrics: the gross as is, fees and net through int(). */
  function Summarise(e: Earnings): (s: Summary)
    ensures s.gross == e.gross
    ensures 0.0 <= e.commission ==> s.fees as real <= e.commission < s.fees as real + 1.0
    ensures 0.0 <= e.net ==> s.net as real <= e.net < s.net as real + 1.0
  {
    Summary(e.gross, Trunc(e.commission), Trunc(e.net))
  }

  /** The analytics lines: the annual figure and the three comparison amounts through int(). */
  function Show(i: Insights): (s: ShownInsights)
    ensures s.tip == i.tip
    ensures 0.0 <= i.yearlyNet ==> s.yearly as real <= i.yearlyNet < s.yearly as real + 1.0
    ensures 0.0 <= i.comparison.webNet ==>
              s.web as real <= i.comparison.webNet < s.web as real + 1.0
    ensures 0.0 <= i.comparison.appNet ==>
              s.app as real <= i.comparison.appNet < s.app as real + 1.0
    ensures 0.0 <= i.comparison.webNet - i.comparison.appNet ==>
              s.savings as real <= i.comparison.webNet - i.comparison.appNet < s.savings as real + 1.0
  {
    ShownInsights(Trunc(i.yearlyNet), i.tip, Trunc(i.comparison.webNet),
                  Trunc(i.comparison.appNet), Trunc(i.comparison.webNet - i.comparison.appNet))
  }

  /** The whole page for the given widget values. */
  function Evaluate(subscribers: nat, charge: nat, platform: Platform): (page: Page)
    ensures SliderMin <= page.pct <= SliderMax
    ensures page.earnings.gross == subscribers * charge
    ensures page.insights.Some? <==> subscribers > 0 && charge > 0
    ensures page.shown.Some? <==> page.insights.Some?
    ensures 0 <= page.summary.fees <= page.summary.net <= page.summary.gross
  {
    var pct := CommissionPct(platform);
    var e := Calculate(subscribers, charge, pct);
    NetPositiveIff(subscribers, charge, pct);
    CommissionBounds(subscribers, charge, pct);
    GrossIsProduct(subscribers, charge, pct);
    var insights := Analyse(e, pct);
    var shown := if insights.Some? then Some(Show(insights.value)) else None;
    TruncMonotone(e.commission, e.net);
    TruncMonotone(e.net, e.gross as real);
    Page(pct, e, Summarise(e), insights, shown)
  }

  /** Truncation of non-negative amounts preserves their order. */
  lemma TruncMonotone(x: real, y: real)
    requires 0.0 <= x <= y
    ensures Trunc(x) <= Trunc(y)
  {
  }

  /** Truncation of a whole amount gives that amount back. */
  lemma TruncWhole(n: int)
    ensures Trunc(n as real) == n
  {
  }

  /**
   * The shown fees and the shown net add up to the gross, or to one less when
   * the commission has a fractional part that both truncations drop.
   */
  lemma ShownSummarySplit(subscribers: nat, charge: nat, platform: Platform)
    ensures var p := Evaluate(subscribers, charge, platform);
            p.summary.gross - 1 <= p.summary.fees + p.summary.net <= p.summary.gross
  {
    CommissionBounds(subscribers, charge, CommissionPct(platform));
  }

  /** Zero subscribers or a zero charge: all figures are zero and the analytics block is skipped. */
  lemma NothingEarnedSkipsInsights(subscribers: nat, charge: nat, platform: Platform)
    requires subscribers == 0 || charge == 0
    ensures var p := Evaluate(subscribers, charge, platform);
            p.summary == Summary(0, 0, 0) && p.insights == None && p.shown == None
  {
    NothingEarned(subscribers, charge, CommissionPct(platform));
  }

  /** When the analytics block is shown, the annual figure is twelve times the monthly net. */
  lemma AnnualProjection(subscribers: nat, charge: nat, platform: Platform)
    requires subscribers > 0 && charge > 0
    ensures var p := Evaluate(subscribers, charge, platform);
            p.insights.Some? && p.insights.value.yearlyNet == 12.0 * p.earnings.net
            && p.shown.value.yearly >= 12 * p.summary.net
  {
    var t := Trunc(Evaluate(subscribers, charge, platform).earnings.net);
    TruncMonotone((12 * t) as real, 12.0 * Evaluate(subscribers, charge, platform).earnings.net);
  }

  /** Which pro-tip each platform shows when there are earnings. */
  lemma TipForPlatform(subscribers: nat, charge: nat, platform: Platform)
    requires subscribers > 0 && charge > 0
    ensures var p := Evaluate(subscribers, charge, platform);
            p.insights.Some? &&
            p.insights.value.tip == match platform
              case WebBased => NoTip
              case SmallBusiness => SmallBusinessInfo
              case StandardAppStore => HighFeesWarning
              case Custom(k) => if k >= 30 then HighFeesWarning
                                else if k == 15 then SmallBusinessInfo
                                else NoTip
  {
    ProTipCases(CommissionPct(platform));
  }

  /** The comparison depends on the gross alone, not on the platform chosen. */
  lemma ComparisonIgnoresPlatform(subscribers: nat, charge: nat, p1: Platform, p2: Platform)
    requires subscribers > 0 && charge > 0
    ensures Evaluate(subscribers, charge, p1).insights.value.comparison
            == Evaluate(subscribers, charge, p2).insights.value.comparison
  {
  }

  /**
   * The comparison's shown amounts: the web net is at least the app-store net, and
   * the shown monthly saving is a tenth of the gross, rounded down.
   */
  lemma ShownComparison(subscribers: nat, charge: nat, platform: Platform)
    requires subscribers > 0 && charge > 0
    ensures var p := Evaluate(subscribers, charge, platform);
            p.shown.Some? && p.shown.value.app <= p.shown.value.web
            && p.shown.value.web == 8 * p.earnings.gross / 10
            && p.shown.value.app == 7 * p.earnings.gross / 10
            && p.shown.value.savings == p.earnings.gross / 10
  {
    var p := Evaluate(subscribers, charge, platform);
    var g := p.earnings.gross;
    var c := p.insights.value.comparison;
    TruncMonotone(c.appNet, c.webNet);
    assert c.webNet == (8 * g) as real / 10.0;
    assert c.appNet == (7 * g) as real / 10.0;
    TruncTenth(8 * g);
    TruncTenth(7 * g);
    TruncTenth(g);
  }

  /**
   * The page follows the chosen platform: the commission is that platform's, the
   * shown fees and net are the gross at that commission in whole rupees, and the
   * analytics block shows twelve months of that net and the pro-tip for it.
   */
  lemma ShownAtCommission(subscribers: nat, charge: nat, platform: Platform)
    ensures var p := Evaluate(subscribers, charge, platform);
            var g, pct := subscribers * charge, CommissionPct(platform);
            p.pct == pct
            && p.summary.fees == g * pct / 100
            && p.summary.net == g * (100 - pct) / 100
            && (p.shown.Some? ==>
                  p.shown.value.yearly == 12 * (g * (100 - pct)) / 100
                  && p.shown.value.tip == ProTip(pct))
  {
    var g, pct := subscribers * charge, CommissionPct(platform);
    var e := Calculate(subscribers, charge, pct);
    CalculateInHundredths(subscribers, charge, pct);
    var c, n := g * pct, g * (100 - pct);
    assert c >= 0 && n >= 0;
    TruncHundredth(c);
    TruncHundredth(n);
    if e.net > 0.0 {
      assert e.net * MonthsPerYear as real == (12 * n) as real / 100.0;
      TruncHundredth(12 * n);
    }
  }

  /** A non-negative whole amount divided by ten and truncated is its integer tenth. */
  lemma TruncTenth(n: nat)
    ensures Trunc(n as real / 10.0) == n / 10
  {
    var q := n / 10;
    assert n == 10 * q + n % 10;
    assert q as real <= n as real / 10.0 < q as real + 1.0;
  }

  /** A non-negative whole amount divided by a hundred and truncated is its integer hundredth. */
  lemma TruncHundredth(n: nat)
    ensures Trunc(n as real / 100.0) == n / 100
  {
    var q := n / 100;
    assert n == 100 * q + n % 100;
    assert q as real <= n as real / 100.0 < q as real + 1.0;
  }

  /** The page as first opened: 100 subscribers at 290 on the web preset. */
  lemma DefaultPage()
    ensures var p := Evaluate(DefaultSubscribers, DefaultCharge, WebBased);
            p.earnings == Earnings(29000, 5800.0, 23200.0)
            && p.summary == Summary(29000, 5800, 23200)
            && p.shown == Some(ShownInsights(278400, NoTip, 23200, 20300, 2900))
  {
    TruncWhole(5800);
    TruncWhole(23200);
    TruncWhole(278400);
    TruncWhole(20300);
    TruncWhole(2900);
  }
}

=== FILE: wrappers.dfy ===
/** The optional value used for parts of the page that are shown only under a condition. */
module Wrappers {

  datatype Option<+T> = None | Some(value: T)
}
